=== FILE: README.md ===
# Camera distortion plugin: a Dafny model of its configuration core

This project models the configuration and state logic of the AMBF camera
distortion plugin. The plugin renders the simulated scene into an off-screen
frame buffer, then draws that image onto a screen-filling quad through a lens
distortion shader. The model covers these parts of
`plugin/camera_distortion_plugin.cpp`:

- `readCameraParams`, the lens-configuration validator
  (`camera_params.dfy`, with its properties in `camera_params_properties.dfy`).
  It runs checks in a fixed order over a loaded YAML document:
  `type` → `intrinsic` → `fx`/`fy`/`cx`/`cy` → `distortion_coeffs` → count rule.
  It answers 1 or 0 and writes an out-parameter as it goes. The model is a
  pure function from (document, prior parameters) to (code, parameters).
- The YAML node operations the validator depends on (`yaml.dfy`). A document is
  `Null | Scalar | Seq | Map`. `node[key]` follows yaml-cpp's non-const
  subscript: a map looks the key up; a scalar throws `BadSubscript`; a null or
  a sequence is first turned into a map, whose keys for a sequence are the
  decimal spellings of the element positions. `as<double>()` is the parameter
  `parse`. It is not reimplemented.
- The decision logic of `init` (`plugin_init.dfy`): its return code, the
  coefficient slots it fills, and the constant defaults it sets. `Init`
  follows the coefficient branch as written, including its out-of-range read.
  `InitCorrected` is the same function with that branch corrected (see
  "## Findings").
- The scene swap in `graphicsUpdate` (`scene_swap.dfy`). The render step is an
  arbitrary function on the camera, which may also throw.
- The quad construction in `init` (`quad_mesh.dfy`): the triangle loop over the
  18-float position array, and the six texture coordinates.

Behaviour of the code that a reader might not expect, and which the model keeps:

- `init` does not look at the validator's answer. A file the validator
  rejects is treated like an accepted one. If the shader program fails to
  load, `init` returns -1 before it looks at the coefficients. Once the shader
  program has loaded, whether `init` returns depends only on the coefficient
  vector the validator left behind. If the vector is
  non-empty, `init` returns 1 with all-zero coefficient slots. If it is empty,
  the copy loop reads out of range before `init` returns. The vector is left
  empty in four cases (`PluginInit.InitOutOfRangeExactlyFor`):
  - the file does not load;
  - it is rejected before the coefficient stage;
  - its `distortion_coeffs` list is empty, whatever the type;
  - the first element of the list does not convert.

  In the last two cases the vector is cleared and nothing is appended. This
  relies on a default-constructed parameter record starting with an empty
  vector.
- An unknown `type` string is accepted with any number of coefficients. The
  type is stored as the string itself, not as an enumeration.
- The lens centre is set to (0, 0). It is not derived from the intrinsics.
  Aberration scale is (1, 1, 1).
- The coefficients are read from `distortion_coeffs`, a key the validator
  requires. The code has no optional radial, tangential or chromatic keys.
- After the draw, stereo mode is set to passive left/right. It is not restored
  to its earlier value.
- Nothing catches an exception from the camera's render, so a throwing render
  leaves the camera as it was at the throw. If the render did not touch the
  camera, that is the distortion world, the empty front layer and stereo
  disabled.

## Model

| member | source | states |
|---|---|---|
| Yaml.WordKeyFoundOnlyInMap | plugin/camera_distortion_plugin.cpp:250 | looking up a key that does not start with a digit finds a value exactly when the document is a map holding that key; only a scalar document throws |
| Yaml.ConvertEach | plugin/camera_distortion_plugin.cpp:279-282 | the appended values are the conversions of the leading elements, in order; conversion stops at the first non-numeric element, and is complete exactly when every element was appended |
| Yaml.ConvertEachCompleteIff | plugin/camera_distortion_plugin.cpp:280-282 | the element loop finishes without throwing exactly when every element is numeric |
| CameraConfig.ReadCameraParams | plugin/camera_distortion_plugin.cpp:245-296 | the validator answers only 0 or 1 |
| CameraConfig.ReadIntrinsics | plugin/camera_distortion_plugin.cpp:263-271 | passing the intrinsic stage needs all four of fx, fy, cx, cy present and numeric; the stage never changes the camera type |
| CameraConfig.ReadCoefficients | plugin/camera_distortion_plugin.cpp:273-291 | the coefficient stage answers 1 exactly when `distortion_coeffs` is a sequence of numbers whose count fits the type; it changes nothing but the coefficient vector |
| CameraConfig.IntrinsicLookup | plugin/camera_distortion_plugin.cpp:264-267 | converting `intrinsic[key]` succeeds exactly when the key is present and numeric, and then yields that value |
| CameraConfigProperties.RejectsBadTypeUntouched | plugin/camera_distortion_plugin.cpp:245-253 | a file that fails to load, or a missing or non-scalar `type`, gives 0 and leaves the parameters unchanged |
| CameraConfigProperties.ReachesIntrinsics | plugin/camera_distortion_plugin.cpp:249-262 | a valid `type` and an `intrinsic` map lead to the intrinsic stage, with the type already written |
| CameraConfigProperties.ReachesCoefficients | plugin/camera_distortion_plugin.cpp:263-272 | four numeric intrinsics lead to the coefficient stage, with type and all four intrinsics written |
| CameraConfigProperties.RejectsBadIntrinsicAfterType | plugin/camera_distortion_plugin.cpp:254-261 | a missing or non-map `intrinsic` gives 0, but `camera_type` has already been overwritten and nothing else changed |
| CameraConfigProperties.IntrinsicsStoredUpToFirstFailure | plugin/camera_distortion_plugin.cpp:263-271 | when the k-th intrinsic is the first missing or non-numeric one, the answer is 0; intrinsics before k hold the new values, and k and later keep the old ones |
| CameraConfigProperties.RejectsBadCoefficientsField | plugin/camera_distortion_plugin.cpp:274-277 | a missing or non-sequence `distortion_coeffs` gives 0; type and intrinsics are written, and the old coefficients stay |
| CameraConfigProperties.CoefficientsStoredUpToFirstFailure | plugin/camera_distortion_plugin.cpp:279-282 | when element k is the first non-numeric coefficient, the outer handler answers 0 and the vector holds exactly the k values before it |
| CameraConfigProperties.CountRuleDecides | plugin/camera_distortion_plugin.cpp:284-291 | with every coefficient numeric, the answer is 1 exactly when fisheye has 4 and pinhole has 5 coefficients (other types: any count); the vector holds all values in order |
| CameraConfigProperties.AcceptsExactly | plugin/camera_distortion_plugin.cpp:245-296 | the answer is 1 if and only if the document loads and satisfies the declarative acceptability conditions |
| CameraConfigProperties.AcceptedParamsIgnorePrior | plugin/camera_distortion_plugin.cpp:254-282 | an accepted document overwrites every field, so the result does not depend on the prior parameters |
| CameraConfigProperties.ReadIsIdempotent | plugin/camera_distortion_plugin.cpp:245-296 | reading the same document again into the resulting parameters gives the same code and parameters |
| PluginInit.ReadFirstFour | plugin/camera_distortion_plugin.cpp:114-116 | the four-slot copy loop stays in range exactly when the vector has at least four entries, and then copies the first four |
| PluginInit.CoefficientsAsWritten | plugin/camera_distortion_plugin.cpp:113-122 | as written: an empty vector makes the copy read out of range, and any non-empty vector yields zeros |
| PluginInit.InitCoefficients | plugin/camera_distortion_plugin.cpp:113-122 | corrected: four slots, slot i holds the parsed coefficient i when there is one and 0 otherwise |
| PluginInit.Init | plugin/camera_distortion_plugin.cpp:70-171 | as written: the out-of-range read happens only with `distortion_config` present and the shader loaded; a return gives -1 or 1, and 1 exactly when `distortion_config` is present and the shader loaded; on 1 it sets viewport scale (1,1), aberration (1,1,1), lens centre (0,0), warp scale and adjustment 1, and all-zero coefficient slots |
| PluginInit.InitCorrected | plugin/camera_distortion_plugin.cpp:70-171 | with the line-113 branch corrected: always returns; -1 or 1, and 1 exactly when `distortion_config` is present and the shader loaded; on 1 the same defaults and four coefficient slots |
| PluginInit.InitOutOfRangeIffVectorEmpty | plugin/camera_distortion_plugin.cpp:74-122 | as written, with a config path and a loaded shader, init reads out of range exactly when the validator left the coefficient vector empty, whatever it answered |
| PluginInit.EarlyRejectionReadsOutOfRange | plugin/camera_distortion_plugin.cpp:77-122 | a file that does not load, or that has a bad `type`, `intrinsic`, fx/fy/cx/cy or `distortion_coeffs` field, makes init as written read out of range |
| PluginInit.InitOutOfRangeExactlyFor | plugin/camera_distortion_plugin.cpp:74-122 | as written, with a config path and a loaded shader, init reads out of range if and only if the file does not load, is rejected before the coefficient stage, or has a coefficient list that is empty or whose first element does not convert |
| PluginInit.AcceptedEmptyListReadsOutOfRange | plugin/camera_distortion_plugin.cpp:113-116 | an accepted file with an empty coefficient list (only possible for a type other than fisheye or pinhole) also makes init read out of range |
| PluginInit.InitIgnoresValidation | plugin/camera_distortion_plugin.cpp:77-122 | as written, every file whose coefficient list starts with a number makes init return 1 with all-zero slots, whether or not the validator accepted the file |
| PluginInit.InitCorrectedIgnoresValidation | plugin/camera_distortion_plugin.cpp:77-87 | with the corrected branch, the return code does not depend on the configuration file's contents |
| PluginInit.AcceptedCoefficientsReachSlots | plugin/camera_distortion_plugin.cpp:113-122 | with the corrected copy, an accepted fisheye or pinhole file's first four coefficients reach the shader slots |
| PluginInit.CoefficientsAsWrittenDiscardParsed | plugin/camera_distortion_plugin.cpp:113-122 | for a vector of at least four coefficients whose first four are not all zero, the as-written branch does not give the corrected slots; an empty vector reads out of range |
| PluginInit.RejectedPinholeStillInitialises | plugin/camera_distortion_plugin.cpp:77-122 | a pinhole file with four coefficients is rejected by the validator, yet init returns 1, with the coefficients replaced by zeros |
| QuadMesh.BuildTriangles | plugin/camera_distortion_plugin.cpp:145-151 | the loop with offset 9*vI for vI < 2 reads only indices below 18; it creates six vertices, where vertex v is the v-th xyz triple of the array |
| QuadMesh.BuildQuadMesh | plugin/camera_distortion_plugin.cpp:135-157 | every vertex's texture coordinate is its position mapped onto the unit square ((x+1)/2, (y+1)/2), so all lie in [0,1]×[0,1] |
| SceneSwap.GraphicsUpdate | plugin/camera_distortion_plugin.cpp:184-196 | the render step sees the distortion world, the empty front layer and stereo disabled; when it returns, parent world and front layer equal their earlier values whatever the render did, and stereo mode is passive left/right; when it throws, nothing is restored |
| SceneSwap.StereoModeNotRestored | plugin/camera_distortion_plugin.cpp:185-195 | when the render returns, a camera that was not in passive left/right stereo comes back changed |
| SceneSwap.ThrowingRenderLeavesSwap | plugin/camera_distortion_plugin.cpp:184-196 | a render that throws without touching the camera leaves it on the distortion world, with the empty front layer and stereo disabled |
| SceneSwap.FramesKeepWorlds | plugin/camera_distortion_plugin.cpp:174-197 | over any number of frames whose render steps all return, the camera keeps its original worlds, and after at least one frame it is in passive left/right stereo |

## Left out

- OpenGL and GLFW work is not modelled: context switching, `renderView`, the
  uniform uploads of `updateCameraParams`, frame-buffer setup and the mesh's
  normals, texture and shader binding. The camera's render is a parameter.
- `makeFullScreen` is not modelled. It only places a window on a monitor.
- YAML text loading and the text-to-double conversion are not modelled. A
  loaded file is `Option<Node>`, where `None` means loading threw. Conversion
  is the parameter `parse`.
- Shader program creation is not modelled. Only its success bit is kept.
- Floating-point arithmetic is not modelled. Values are opaque reals, and the
  uniform `m_warp_scale*m_warp_adj` is left out.
- Logging, and the no-op `physicsUpdate`, `reset` and `close`, are left out.
- The frame-buffer size constants (1920×1080, alias scaling 1) are left out.
- `init` reads `vertex_shader` and `fragment_shader` with `as<string>()`. A
  missing key there throws out of `init` uncaught. This is not modelled:
  `PluginInit.Init` receives only the shader-loaded bit.
- `CameraParams` is declared in `camera_distortion_plugin.h`, which is not
  part of this model. `PluginInit.DefaultParams` assumes that a
  default-constructed record has an empty coefficient vector, as a
  `std::vector` member does. Every out-of-range case of `init` rests on this.
- `init` writes to the camera before the shader check (override rendering on,
  stereo offset 0) and sets up the frame buffer. These writes are not
  modelled. A -1 return for a failed shader therefore still leaves override
  rendering on, which `PluginInit.Init` does not show.
- How `init` looks up `plugins[0].distortion_config` in the object's
  specification data is reduced to an optional path. This hides two things:
  a `distortion_config` that is a map or a sequence makes `as<string>()`
  throw out of `init` uncaught, and the lookup always reads the first plugin
  entry, whichever entry belongs to this plugin.
- Parameter fields the validator never writes are not modelled.
- SceneSwap.GraphicsUpdate: `setStereoMode` and `setParentWorld` are modelled
  as plain field writes. Any other effect those host setters have is not part
  of this model.

## Findings

| source | as written | input that shows it | evidently intended | confidence | as-written member | corrected member |
|---|---|---|---|---|---|---|
| plugin/camera_distortion_plugin.cpp:113 | `if (params.distortion_coefs.empty())` runs the copy loop for an empty vector and zeroes the slots otherwise | an empty vector makes the loop read index 0 of an empty vector; coefficients `[0.1, -0.05, 0, 0]` from a valid fisheye file become `[0, 0, 0, 0]` | copy the parsed coefficients when there are any, and use zeros where there are none | high; not executed | PluginInit.CoefficientsAsWritten (used by PluginInit.Init; shown by PluginInit.CoefficientsAsWrittenDiscardParsed and PluginInit.EarlyRejectionReadsOutOfRange) | PluginInit.InitCoefficients (used by PluginInit.InitCorrected; proved in PluginInit.AcceptedCoefficientsReachSlots) |

=== FILE: camera_params.dfy ===
/**
 The lens-configuration validator `readCameraParams`: an ordered series of
 checks over a loaded YAML document that fills an out-parameter as it goes and
 answers 1 (accepted) or 0 (rejected).
 */
module CameraConfig {
  import opened Wrappers
  import opened Yaml

  /** The plugin's parameter record, restricted to the fields the validator
      writes. Doubles are kept as opaque reals: nothing here computes with them. */
  datatype CameraParams = CameraParams(
    cameraType: string,
    fx: real,
    fy: real,
    cx: real,
    cy: real,
    distortionCoefs: seq<real>)

  /** The return code together with the out-parameter as the call leaves it. */
  datatype ReadResult = ReadResult(code: int, params: CameraParams)

  const TypeKey := "type"
  const IntrinsicKey := "intrinsic"
  const CoeffsKey := "distortion_coeffs"

  /** The intrinsic keys, in the order the validator reads them. */
  const IntrinsicKeys: seq<string> := ["fx", "fy", "cx", "cy"]

  /** `readCameraParams(filename, params)`. `file` is what loading the file
      produced: `None` when loading or parsing threw, which the outer handler
      turns into 0. */
  function ReadCameraParams(file: Option<Node>, params: CameraParams, parse: DoubleParser): (r: ReadResult)
    ensures r.code == 0 || r.code == 1
  {
    match file
    case None => ReadResult(0, params)
    case Some(config) =>
      match Subscript(config, TypeKey)
      case BadSubscript => ReadResult(0, params)
      case Undefined => ReadResult(0, params)
      case Defined(typeNode) =>
        if !typeNode.Scalar? then ReadResult(0, params)
        else
          var withType := params.(cameraType := typeNode.text);
          var intrinsic := Subscript(config, IntrinsicKey);
          if !intrinsic.Defined? || !intrinsic.node.Map? then ReadResult(0, withType)
          else ReadIntrinsics(config, intrinsic.node, withType, parse)
  }

  /** The four intrinsic conversions; each one that succeeds is stored before
      the next is tried, and the first failure answers 0. */
  function ReadIntrinsics(config: Node, intrinsic: Node, params: CameraParams, parse: DoubleParser): (r: ReadResult)
    ensures r.code == 0 || r.code == 1
    ensures r.params.cameraType == params.cameraType
    ensures r.code == 1 ==> intrinsic.Map? && forall j :: 0 <= j < 4 ==>
              IntrinsicKeys[j] in intrinsic.entries && IsNumeric(intrinsic.entries[IntrinsicKeys[j]], parse)
  {
    WordKeyFoundOnlyInMap(intrinsic, "fx");
    WordKeyFoundOnlyInMap(intrinsic, "fy");
    WordKeyFoundOnlyInMap(intrinsic, "cx");
    WordKeyFoundOnlyInMap(intrinsic, "cy");
    match FieldAsDouble(Subscript(intrinsic, "fx"), parse)
    case None => ReadResult(0, params)
    case Some(fx) =>
      var p1 := params.(fx := fx);
      match FieldAsDouble(Subscript(intrinsic, "fy"), parse)
      case None => ReadResult(0, p1)
      case Some(fy) =>
        var p2 := p1.(fy := fy);
        match FieldAsDouble(Subscript(intrinsic, "cx"), parse)
        case None => ReadResult(0, p2)
        case Some(cx) =>
          var p3 := p2.(cx := cx);
          match FieldAsDouble(Subscript(intrinsic, "cy"), parse)
          case None => ReadResult(0, p3)
          case Some(cy) => ReadCoefficients(config, p3.(cy := cy), parse)
  }

  /** The coefficient sequence: the vector is cleared, then each element is
      converted and appended; a non-numeric element throws, which the outer
      handler turns into 0 with the elements before it already appended.
      Last comes the count rule. */
  function ReadCoefficients(config: Node, params: CameraParams, parse: DoubleParser): (r: ReadResult)
    ensures r.code == 0 || r.code == 1
    ensures r.params.(distortionCoefs := params.distortionCoefs) == params
    ensures r.code == 1 <==>
              && CoeffsOk(config)
              && (forall i :: 0 <= i < |CoeffItems(config)| ==> IsNumeric(CoeffItems(config)[i], parse))
              && CountFits(params.cameraType, |CoeffItems(config)|)
  {
    WordKeyFoundOnlyInMap(config, CoeffsKey);
    var coeffs := Subscript(config, CoeffsKey);
    if !coeffs.Defined? || !coeffs.node.Seq? then ReadResult(0, params)
    else
      var converted := ConvertEach(coeffs.node.items, parse);
      var filled := params.(distortionCoefs := converted.values);
      if !converted.complete then ReadResult(0, filled)
      else if (filled.cameraType == "fisheye" && |filled.distortionCoefs| != 4)
           || (filled.cameraType == "pinhole" && |filled.distortionCoefs| != 5)
      then ReadResult(0, filled)
      else ReadResult(1, filled)
  }

  // ---------------------------------------------------------------------------
  // Reference definitions: what an acceptable document is, stated over the
  // document itself rather than over the sequence of checks.
  // ---------------------------------------------------------------------------

  /** The count rule: a fisheye lens has 4 coefficients, a pinhole lens 5;
      any other type string takes any number. */
  predicate CountFits(cameraType: string, count: nat)
  {
    && (cameraType == "fisheye" ==> count == 4)
    && (cameraType == "pinhole" ==> count == 5)
  }

  predicate TypeOk(config: Node)
  {
    config.Map? && TypeKey in config.entries && config.entries[TypeKey].Scalar?
  }

  predicate IntrinsicOk(config: Node)
  {
    config.Map? && IntrinsicKey in config.entries && config.entries[IntrinsicKey].Map?
  }

  function IntrinsicMap(config: Node): map<string, Node>
    requires IntrinsicOk(config)
  {
    config.entries[IntrinsicKey].entries
  }

  /** The intrinsic named `IntrinsicKeys[j]` is present and numeric. */
  predicate IntrinsicNumeric(config: Node, j: nat, parse: DoubleParser)
    requires IntrinsicOk(config) && j < 4
  {
    IntrinsicKeys[j] in IntrinsicMap(config) && IsNumeric(IntrinsicMap(config)[IntrinsicKeys[j]], parse)
  }

  function IntrinsicValue(config: Node, j: nat, parse: DoubleParser): real
    requires IntrinsicOk(config) && j < 4 && IntrinsicNumeric(config, j, parse)
  {
    AsDouble(IntrinsicMap(config)[IntrinsicKeys[j]], parse).value
  }

  predicate IntrinsicsNumeric(config: Node, parse: DoubleParser)
  {
    IntrinsicOk(config) && forall j: nat :: j < 4 ==> IntrinsicNumeric(config, j, parse)
  }

  predicate CoeffsOk(config: Node)
  {
    config.Map? && CoeffsKey in config.entries && config.entries[CoeffsKey].Seq?
  }

  function CoeffItems(config: Node): seq<Node>
    requires CoeffsOk(config)
  {
    config.entries[CoeffsKey].items
  }

  /** A document the validator accepts. */
  predicate Acceptable(config: Node, parse: DoubleParser)
  {
    && TypeOk(config)
    && IntrinsicsNumeric(config, parse)
    && CoeffsOk(config)
    && (forall i :: 0 <= i < |CoeffItems(config)| ==> IsNumeric(CoeffItems(config)[i], parse))
    && CountFits(config.entries[TypeKey].text, |CoeffItems(config)|)
  }

  /** The intrinsic called `IntrinsicKeys[j]`, looked up and converted the way
      the validator does it, succeeds exactly when it is present and numeric. */
  lemma IntrinsicLookup(config: Node, j: nat, parse: DoubleParser)
    requires IntrinsicOk(config) && j < 4
    ensures var v := FieldAsDouble(Subscript(config.entries[IntrinsicKey], IntrinsicKeys[j]), parse);
            && (v.Some? <==> IntrinsicNumeric(config, j, parse))
            && (v.Some? ==> v.value == IntrinsicValue(config, j, parse))
  {
  }

  /** The intrinsic field of `p` named `IntrinsicKeys[j]`. */
  function Intrinsic(p: CameraParams, j: nat): real
    requires j < 4
  {
    if j == 0 then p.fx else if j == 1 then p.fy else if j == 2 then p.cx else p.cy
  }

  /** `params` after a document passing the type and intrinsic checks has
      written its type and its four intrinsics. */
  function Header(config: Node, params: CameraParams, parse: DoubleParser): CameraParams
    requires TypeOk(config) && IntrinsicsNumeric(config, parse)
  {
    params.(cameraType := config.entries[TypeKey].text,
            fx := IntrinsicValue(config, 0, parse),
            fy := IntrinsicValue(config, 1, parse),
            cx := IntrinsicValue(config, 2, parse),
            cy := IntrinsicValue(config, 3, parse))
  }

  /** The converted values of elements all known to be numeric. */
  function Values(items: seq<Node>, parse: DoubleParser): seq<real>
    requires forall i :: 0 <= i < |items| ==> IsNumeric(items[i], parse)
  {
    seq(|items|, i requires 0 <= i < |items| && IsNumeric(items[i], parse) => AsDouble(items[i], parse).value)
  }
}

=== FILE: camera_params_properties.dfy ===
/**
 Properties of `readCameraParams`: which check rejects which document, what
 the out-parameter holds after each rejection, and exactly which documents
 are accepted.
 */
module CameraConfigProperties {
  import opened Wrappers
  import opened Yaml
  import opened CameraConfig

  /** An unloadable document, or one whose `type` is absent or not a scalar,
      is rejected before anything is written. */
  lemma RejectsBadTypeUntouched(file: Option<Node>, params: CameraParams, parse: DoubleParser)
    requires file.None? || !TypeOk(file.value)
    ensures ReadCameraParams(file, params, parse) == ReadResult(0, params)
  {
    if file.Some? {
      WordKeyFoundOnlyInMap(file.value, TypeKey);
    }
  }

  /** A document passing the type and intrinsic-map checks goes on to the
      four intrinsic conversions with its type written. */
  lemma ReachesIntrinsics(config: Node, params: CameraParams, parse: DoubleParser)
    requires TypeOk(config) && IntrinsicOk(config)
    ensures ReadCameraParams(Some(config), params, parse)
         == ReadIntrinsics(config, config.entries[IntrinsicKey],
                           params.(cameraType := config.entries[TypeKey].text), parse)
  {
  }

  /** A document whose intrinsics all convert goes on to the coefficients
      with its type and intrinsics written. */
  lemma ReachesCoefficients(config: Node, params: CameraParams, parse: DoubleParser)
    requires TypeOk(config) && IntrinsicsNumeric(config, parse)
    ensures ReadCameraParams(Some(config), params, parse)
         == ReadCoefficients(config, Header(config, params, parse), parse)
  {
    ReachesIntrinsics(config, params, parse);
    IntrinsicLookup(config, 0, parse);
    IntrinsicLookup(config, 1, parse);
    IntrinsicLookup(config, 2, parse);
    IntrinsicLookup(config, 3, parse);
  }

  /** A missing or non-map `intrinsic` is rejected after `type` was written. */
  lemma RejectsBadIntrinsicAfterType(config: Node, params: CameraParams, parse: DoubleParser)
    requires TypeOk(config) && !IntrinsicOk(config)
    ensures ReadCameraParams(Some(config), params, parse)
         == ReadResult(0, params.(cameraType := config.entries[TypeKey].text))
  {
  }

  /** When the intrinsic named `IntrinsicKeys[k]` is the first that is missing
      or non-numeric, the call answers 0, the intrinsics before it hold their
      new values and it and those after it keep their old ones. */
  lemma IntrinsicsStoredUpToFirstFailure(config: Node, params: CameraParams, parse: DoubleParser, k: nat)
    requires TypeOk(config) && IntrinsicOk(config)
    requires k < 4
    requires forall j: nat :: j < k ==> IntrinsicNumeric(config, j, parse)
    requires !IntrinsicNumeric(config, k, parse)
    ensures var r := ReadCameraParams(Some(config), params, parse);
            && r.code == 0
            && r.params.cameraType == config.entries[TypeKey].text
            && r.params.distortionCoefs == params.distortionCoefs
            && forall j: nat :: j < 4 ==>
                 Intrinsic(r.params, j) == (if j < k then IntrinsicValue(config, j, parse) else Intrinsic(params, j))
  {
    ReachesIntrinsics(config, params, parse);
    IntrinsicLookup(config, 0, parse);
    IntrinsicLookup(config, 1, parse);
    IntrinsicLookup(config, 2, parse);
    IntrinsicLookup(config, 3, parse);
  }

  /** A missing or non-sequence `distortion_coeffs` is rejected after type and
      intrinsics were written; the old coefficients stay. */
  lemma RejectsBadCoefficientsField(config: Node, params: CameraParams, parse: DoubleParser)
    requires TypeOk(config) && IntrinsicsNumeric(config, parse) && !CoeffsOk(config)
    ensures ReadCameraParams(Some(config), params, parse) == ReadResult(0, Header(config, params, parse))
  {
    ReachesCoefficients(config, params, parse);
    WordKeyFoundOnlyInMap(config, CoeffsKey);
  }

  /** When element `k` is the first non-numeric coefficient, the call answers 0
      and the coefficient vector holds exactly the `k` values before it. */
  lemma CoefficientsStoredUpToFirstFailure(config: Node, params: CameraParams, parse: DoubleParser, k: nat)
    requires TypeOk(config) && IntrinsicsNumeric(config, parse) && CoeffsOk(config)
    requires k < |CoeffItems(config)|
    requires forall i :: 0 <= i < k ==> IsNumeric(CoeffItems(config)[i], parse)
    requires !IsNumeric(CoeffItems(config)[k], parse)
    ensures ReadCameraParams(Some(config), params, parse)
         == ReadResult(0, Header(config, params, parse).(distortionCoefs := Values(CoeffItems(config)[..k], parse)))
  {
    ReachesCoefficients(config, params, parse);
    WordKeyFoundOnlyInMap(config, CoeffsKey);
    var items := CoeffItems(config);
    var converted := ConvertEach(items, parse);
    assert |converted.values| == k;
    assert converted.values == Values(items[..k], parse);
  }

  /** With every coefficient numeric, the count rule alone decides, and the
      coefficient vector holds every value in order. */
  lemma CountRuleDecides(config: Node, params: CameraParams, parse: DoubleParser)
    requires TypeOk(config) && IntrinsicsNumeric(config, parse) && CoeffsOk(config)
    requires forall i :: 0 <= i < |CoeffItems(config)| ==> IsNumeric(CoeffItems(config)[i], parse)
    ensures var r := ReadCameraParams(Some(config), params, parse);
            && (r.code == 1 <==> CountFits(config.entries[TypeKey].text, |CoeffItems(config)|))
            && r.params == Header(config, params, parse).(distortionCoefs := Values(CoeffItems(config), parse))
  {
    ReachesCoefficients(config, params, parse);
    WordKeyFoundOnlyInMap(config, CoeffsKey);
    var items := CoeffItems(config);
    var converted := ConvertEach(items, parse);
    assert converted.values == Values(items, parse);
  }

  /** The validator answers 1 exactly for the acceptable documents. */
  lemma AcceptsExactly(file: Option<Node>, params: CameraParams, parse: DoubleParser)
    ensures ReadCameraParams(file, params, parse).code == 1 <==> file.Some? && Acceptable(file.value, parse)
  {
    if file.None? || !TypeOk(file.value) {
      RejectsBadTypeUntouched(file, params, parse);
      return;
    }
    var config := file.value;
    if !IntrinsicOk(config) {
      RejectsBadIntrinsicAfterType(config, params, parse);
    } else if !IntrinsicsNumeric(config, parse) {
      var k: nat := if !IntrinsicNumeric(config, 0, parse) then 0
                    else if !IntrinsicNumeric(config, 1, parse) then 1
                    else if !IntrinsicNumeric(config, 2, parse) then 2
                    else 3;
      IntrinsicsStoredUpToFirstFailure(config, params, parse, k);
    } else if !CoeffsOk(config) {
      RejectsBadCoefficientsField(config, params, parse);
    } else {
      var items := CoeffItems(config);
      var converted := ConvertEach(items, parse);
      if converted.complete {
        CountRuleDecides(config, params, parse);
      } else {
        CoefficientsStoredUpToFirstFailure(config, params, parse, |converted.values|);
      }
    }
  }

  /** An accepted document overwrites every field, so the prior contents of
      the out-parameter do not matter. */
  lemma AcceptedParamsIgnorePrior(file: Option<Node>, p: CameraParams, q: CameraParams, parse: DoubleParser)
    requires ReadCameraParams(file, p, parse).code == 1
    ensures ReadCameraParams(file, q, parse) == ReadCameraParams(file, p, parse)
  {
  }

  /** Reading the same document into its own result changes nothing: each
      stage writes values that depend on the document only. */
  lemma ReadIsIdempotent(file: Option<Node>, params: CameraParams, parse: DoubleParser)
    ensures var once := ReadCameraParams(file, params, parse);
            ReadCameraParams(file, once.params, parse) == once
  {
  }
}

=== FILE: plugin_init.dfy ===
/**
 The decision logic of the plugin's `init`: which return code it gives, and
 the coefficient slots and shader defaults it sets when it succeeds.
 */
module PluginInit {
  import opened Wrappers
  import opened Yaml
  import opened CameraConfig
  import CameraConfigProperties

  /** The four coefficient slots the shader receives. */
  const ZeroCoefficients: seq<real> := [0.0, 0.0, 0.0, 0.0]

  /** Plugin fields `init` sets once the shader program has loaded. */
  datatype PluginState = PluginState(
    viewportScale: seq<real>,
    distortionCoeffs: seq<real>,
    aberrScale: seq<real>,
    lensCenter: seq<real>,
    warpScale: real,
    warpAdj: real)

  /** How `init` ends: it returns a code and, for code 1, the fields it set;
      or it reads past the end of the coefficient vector, which is undefined
      behaviour and not a return. */
  datatype InitResult = Returned(code: int, state: Option<PluginState>) | OutOfRangeRead

  /** A default-constructed parameter record. The record is declared in
      `camera_distortion_plugin.h`, which is not part of this model; its
      string and vector members are assumed to start empty, as default-
      constructed standard strings and vectors do. Its doubles are never read
      before being written, so their values here are arbitrary. */
  const DefaultParams := CameraParams("", 0.0, 0.0, 0.0, 0.0, [])

  /** The copy loop `m_distortion_coeffs[i] = params.distortion_coefs[i]` for
      i = 0..3; `None` when it reads past the end of the vector. */
  function ReadFirstFour(coefs: seq<real>): (r: Option<seq<real>>)
    ensures r.Some? <==> |coefs| >= 4
    ensures r.Some? ==> |r.value| == 4 && forall i :: 0 <= i < 4 ==> r.value[i] == coefs[i]
  {
    if |coefs| < 4 then None else Some([coefs[0], coefs[1], coefs[2], coefs[3]])
  }

  /** The coefficient branch as written: the copy loop runs when the vector
      is EMPTY, and a non-empty vector is replaced by zeros. `None` stands for
      the out-of-range read. */
  function CoefficientsAsWritten(coefs: seq<real>): (r: Option<seq<real>>)
    ensures r.None? <==> |coefs| == 0
    ensures r.Some? ==> r.value == ZeroCoefficients
  {
    if |coefs| == 0 then ReadFirstFour(coefs) else Some(ZeroCoefficients)
  }

  /** The coefficient branch as evidently intended: each slot takes the parsed
      coefficient when there is one and zero otherwise, so no read goes past
      the end of the vector. */
  function InitCoefficients(coefs: seq<real>): (slots: seq<real>)
    ensures |slots| == 4
    ensures forall i :: 0 <= i < 4 ==> slots[i] == (if i < |coefs| then coefs[i] else 0.0)
  {
    if |coefs| >= 4 then coefs[..4] else coefs + ZeroCoefficients[|coefs|..]
  }

  /** The fields `init` sets after the shader has loaded, with `slots` as
      the coefficient slots. */
  function Defaults(slots: seq<real>): PluginState
  {
    PluginState([1.0, 1.0], slots, [1.0, 1.0, 1.0], [0.0, 0.0], 1.0, 1.0)
  }

  /** `init` as written. `configPath` is the `distortion_config` entry of the
      plugin's specification (None when absent), `loadFile` stands for loading
      a YAML file, and `shaderLoaded` for whether the shader program was
      created. The validator's answer is not consulted; the coefficient
      branch at line 113 is the one as written, so a vector the validator
      left empty ends in the out-of-range read instead of a return. */
  function Init(configPath: Option<string>, loadFile: string -> Option<Node>, parse: DoubleParser,
                shaderLoaded: bool): (r: InitResult)
    ensures r.OutOfRangeRead? ==> configPath.Some? && shaderLoaded
    ensures r.Returned? ==> r.code == -1 || r.code == 1
    ensures r.Returned? ==> (r.code == 1 <==> configPath.Some? && shaderLoaded)
    ensures r.Returned? ==> (r.state.Some? <==> r.code == 1)
    ensures r.Returned? && r.code == 1 ==>
              && r.state.value.viewportScale == [1.0, 1.0]
              && r.state.value.aberrScale == [1.0, 1.0, 1.0]
              && r.state.value.lensCenter == [0.0, 0.0]
              && r.state.value.warpScale == 1.0
              && r.state.value.warpAdj == 1.0
              && r.state.value.distortionCoeffs == ZeroCoefficients
  {
    if configPath.None? then Returned(-1, None)
    else
      var read := ReadCameraParams(loadFile(configPath.value), DefaultParams, parse);
      if !shaderLoaded then Returned(-1, None)
      else
        match CoefficientsAsWritten(read.params.distortionCoefs)
        case None => OutOfRangeRead
        case Some(slots) => Returned(1, Some(Defaults(slots)))
  }

  /** `init` with the coefficient branch corrected: it always returns, and the
      slots take the parsed coefficients, zero-padded. */
  function InitCorrected(configPath: Option<string>, loadFile: string -> Option<Node>, parse: DoubleParser,
                         shaderLoaded: bool): (r: InitResult)
    ensures r.Returned?
    ensures r.code == -1 || r.code == 1
    ensures r.code == 1 <==> configPath.Some? && shaderLoaded
    ensures r.state.Some? <==> r.code == 1
    ensures r.code == 1 ==>
              && r.state.value.viewportScale == [1.0, 1.0]
              && r.state.value.aberrScale == [1.0, 1.0, 1.0]
              && r.state.value.lensCenter == [0.0, 0.0]
              && r.state.value.warpScale == 1.0
              && r.state.value.warpAdj == 1.0
              && |r.state.value.distortionCoeffs| == 4
  {
    if configPath.None? then Returned(-1, None)
    else
      var read := ReadCameraParams(loadFile(configPath.value), DefaultParams, parse);
      if !shaderLoaded then Returned(-1, None)
      else Returned(1, Some(Defaults(InitCoefficients(read.params.distortionCoefs))))
  }

  /** As written, `init` ends in the out-of-range read exactly when the
      validator left the coefficient vector empty, whatever it answered. */
  lemma InitOutOfRangeIffVectorEmpty(path: string, loadFile: string -> Option<Node>, parse: DoubleParser)
    ensures Init(Some(path), loadFile, parse, true).OutOfRangeRead?
        <==> |ReadCameraParams(loadFile(path), DefaultParams, parse).params.distortionCoefs| == 0
  {
  }

  /** A file that does not load, or that is rejected before the coefficient
      stage, leaves the vector empty, so `init` as written reads out of range. */
  lemma EarlyRejectionReadsOutOfRange(path: string, loadFile: string -> Option<Node>, parse: DoubleParser)
    requires var file := loadFile(path);
             file.None? || !TypeOk(file.value) || !IntrinsicOk(file.value)
             || !IntrinsicsNumeric(file.value, parse) || !CoeffsOk(file.value)
    ensures Init(Some(path), loadFile, parse, true).OutOfRangeRead?
  {
    var file := loadFile(path);
    if file.None? || !TypeOk(file.value) {
      CameraConfigProperties.RejectsBadTypeUntouched(file, DefaultParams, parse);
      return;
    }
    var config := file.value;
    if !IntrinsicOk(config) {
      CameraConfigProperties.RejectsBadIntrinsicAfterType(config, DefaultParams, parse);
    } else if !IntrinsicsNumeric(config, parse) {
      var k: nat := if !IntrinsicNumeric(config, 0, parse) then 0
                    else if !IntrinsicNumeric(config, 1, parse) then 1
                    else if !IntrinsicNumeric(config, 2, parse) then 2
                    else 3;
      CameraConfigProperties.IntrinsicsStoredUpToFirstFailure(config, DefaultParams, parse, k);
    } else {
      CameraConfigProperties.RejectsBadCoefficientsField(config, DefaultParams, parse);
    }
  }

  /** An accepted file with an empty coefficient list (possible for a type
      other than fisheye and pinhole) also reads out of range. */
  lemma AcceptedEmptyListReadsOutOfRange(path: string, loadFile: string -> Option<Node>, parse: DoubleParser)
    requires loadFile(path).Some? && Acceptable(loadFile(path).value, parse)
    requires |CoeffItems(loadFile(path).value)| == 0
    ensures ReadCameraParams(loadFile(path), DefaultParams, parse).code == 1
    ensures Init(Some(path), loadFile, parse, true).OutOfRangeRead?
  {
    CameraConfigProperties.CountRuleDecides(loadFile(path).value, DefaultParams, parse);
  }

  /** As written, `init` answers 1 with all-zero slots for every file whose
      coefficient list starts with a number, whatever the validator answers
      about the rest of it. */
  lemma InitIgnoresValidation(path: string, loadFile: string -> Option<Node>, parse: DoubleParser)
    requires loadFile(path).Some?
    requires var config := loadFile(path).value;
             && TypeOk(config) && IntrinsicsNumeric(config, parse) && CoeffsOk(config)
             && |CoeffItems(config)| > 0 && IsNumeric(CoeffItems(config)[0], parse)
    ensures Init(Some(path), loadFile, parse, true) == Returned(1, Some(Defaults(ZeroCoefficients)))
  {
    var config := loadFile(path).value;
    CameraConfigProperties.ReachesCoefficients(config, DefaultParams, parse);
    var converted := ConvertEach(CoeffItems(config), parse);
    assert |converted.values| > 0;
  }

  /** As written, `init` reads out of range for exactly these files: one that
      does not load, one rejected before the coefficient stage, and one whose
      coefficient list is empty or starts with an element that does not
      convert. In the last two cases line 279 clears the vector and nothing is
      appended. */
  lemma InitOutOfRangeExactlyFor(path: string, loadFile: string -> Option<Node>, parse: DoubleParser)
    ensures var file := loadFile(path);
            (Init(Some(path), loadFile, parse, true).OutOfRangeRead? <==>
              || file.None?
              || !TypeOk(file.value)
              || !IntrinsicOk(file.value)
              || !IntrinsicsNumeric(file.value, parse)
              || !CoeffsOk(file.value)
              || |CoeffItems(file.value)| == 0
              || !IsNumeric(CoeffItems(file.value)[0], parse))
  {
    var file := loadFile(path);
    if file.None? || !TypeOk(file.value) || !IntrinsicOk(file.value)
       || !IntrinsicsNumeric(file.value, parse) || !CoeffsOk(file.value) {
      EarlyRejectionReadsOutOfRange(path, loadFile, parse);
    } else if |CoeffItems(file.value)| > 0 && IsNumeric(CoeffItems(file.value)[0], parse) {
      InitIgnoresValidation(path, loadFile, parse);
    } else {
      CameraConfigProperties.ReachesCoefficients(file.value, DefaultParams, parse);
      var converted := ConvertEach(CoeffItems(file.value), parse);
      assert |converted.values| == 0;
    }
  }

  /** With the corrected branch the return code does not depend on the
      configuration file at all. A corollary of `InitCorrected`'s own
      contract, stated for two files side by side. */
  lemma InitCorrectedIgnoresValidation(configPath: Option<string>, f: string -> Option<Node>,
                                       g: string -> Option<Node>, parse: DoubleParser, shaderLoaded: bool)
    ensures InitCorrected(configPath, f, parse, shaderLoaded).code == InitCorrected(configPath, g, parse, shaderLoaded).code
  {
  }

  /** With the corrected branch, an accepted fisheye configuration reaches the
      shader slots unchanged, and an accepted pinhole one with its first four
      coefficients. */
  lemma AcceptedCoefficientsReachSlots(path: string, loadFile: string -> Option<Node>, parse: DoubleParser)
    requires var read := ReadCameraParams(loadFile(path), DefaultParams, parse);
             read.code == 1 && read.params.cameraType in {"fisheye", "pinhole"}
    ensures var read := ReadCameraParams(loadFile(path), DefaultParams, parse);
            var slots := InitCorrected(Some(path), loadFile, parse, true).state.value.distortionCoeffs;
            slots == read.params.distortionCoefs[..4]
  {
  }

  /** The branch as written never delivers parsed coefficients: an empty
      vector reads out of range and any other vector is discarded. */
  lemma CoefficientsAsWrittenDiscardParsed(coefs: seq<real>)
    requires |coefs| >= 4 && coefs[..4] != ZeroCoefficients
    ensures CoefficientsAsWritten(coefs) != Some(InitCoefficients(coefs))
    ensures CoefficientsAsWritten([]).None?
  {
  }

  /** A pinhole configuration with four coefficients instead of five: the
      validator rejects it, yet `init` answers 1, with the coefficients
      replaced by zeros. */
  lemma RejectedPinholeStillInitialises()
    ensures var parse: DoubleParser := s => Some(0.25);
            var k := Scalar("0.25");
            var doc := Map(map[
              "type" := Scalar("pinhole"),
              "intrinsic" := Map(map["fx" := k, "fy" := k, "cx" := k, "cy" := k]),
              "distortion_coeffs" := Seq([k, k, k, k])]);
            var loadFile := (path: string) => Some(doc);
            && ReadCameraParams(loadFile("lens.yaml"), DefaultParams, parse).code == 0
            && Init(Some("lens.yaml"), loadFile, parse, true) == Returned(1, Some(Defaults([0.0, 0.0, 0.0, 0.0])))
  {
  }
}

=== FILE: quad_mesh.dfy ===
/**
 The screen-filling quad of the plugin's `init`: two triangles read from a
 flat 18-float position array, then one texture coordinate per vertex.
 */
module QuadMesh {

  datatype Vec3 = Vec3(x: real, y: real, z: real)

  /** The position array: two triangles of three xyz vertices. */
  const Quad: seq<real> := [
    -1.0,  1.0, 0.0,
    -1.0, -1.0, 0.0,
     1.0, -1.0, 0.0,
    -1.0,  1.0, 0.0,
     1.0, -1.0, 0.0,
     1.0,  1.0, 0.0
  ]

  /** Vertex positions in creation order, and their texture coordinates. */
  datatype Mesh = Mesh(positions: seq<Vec3>, texCoords: seq<Vec3>)

  /** The vertex at position `v` of a flat xyz array. */
  function VertexAt(quad: seq<real>, v: nat): Vec3
    requires 3 * v + 2 < |quad|
  {
    Vec3(quad[3 * v], quad[3 * v + 1], quad[3 * v + 2])
  }

  /** The triangle loop: for `vI < 2`, offset `vI * 9`, three vertices read
      from `off + 0` to `off + 8`; each new triangle adds three vertices. */
  method BuildTriangles(quad: seq<real>) returns (positions: seq<Vec3>)
    requires |quad| == 18
    ensures |positions| == 6
    ensures forall v :: 0 <= v < 6 ==> positions[v] == VertexAt(quad, v)
  {
    positions := [];
    var vI := 0;
    while vI < 2
      invariant 0 <= vI <= 2
      invariant |positions| == 3 * vI
      invariant forall v :: 0 <= v < |positions| ==> positions[v] == VertexAt(quad, v)
    {
      var off := vI * 9;
      var v0 := Vec3(quad[off + 0], quad[off + 1], quad[off + 2]);
      var v1 := Vec3(quad[off + 3], quad[off + 4], quad[off + 5]);
      var v2 := Vec3(quad[off + 6], quad[off + 7], quad[off + 8]);
      positions := positions + [v0, v1, v2];
      vI := vI + 1;
    }
  }

  /** The texture coordinate that maps clip-space position `p` onto the unit
      square of the captured image. */
  function ImageCoord(p: Vec3): Vec3
  {
    Vec3((p.x + 1.0) / 2.0, (p.y + 1.0) / 2.0, 1.0)
  }

  /** The whole quad: triangles from `Quad`, then the six texture coordinates
      in the order they are set. Every vertex's texture coordinate is its
      position mapped onto the unit square. */
  method BuildQuadMesh() returns (mesh: Mesh)
    ensures |mesh.positions| == 6 && |mesh.texCoords| == 6
    ensures forall v :: 0 <= v < 6 ==> mesh.positions[v] == VertexAt(Quad, v)
    ensures forall v :: 0 <= v < 6 ==> mesh.texCoords[v] == ImageCoord(mesh.positions[v])
    ensures forall v :: 0 <= v < 6 ==> 0.0 <= mesh.texCoords[v].x <= 1.0 && 0.0 <= mesh.texCoords[v].y <= 1.0
  {
    var positions := BuildTriangles(Quad);
    var tex := seq(|positions|, _ => Vec3(0.0, 0.0, 0.0));
    tex := tex[1 := Vec3(0.0, 0.0, 1.0)];
    tex := tex[2 := Vec3(1.0, 0.0, 1.0)];
    tex := tex[0 := Vec3(0.0, 1.0, 1.0)];
    tex := tex[3 := Vec3(0.0, 1.0, 1.0)];
    tex := tex[4 := Vec3(1.0, 0.0, 1.0)];
    tex := tex[5 := Vec3(1.0, 1.0, 1.0)];
    mesh := Mesh(positions, tex);
  }
}

=== FILE: scene_swap.dfy ===
/**
 The scene swap of the plugin's `graphicsUpdate`: the camera is pointed at
 the distortion world with an empty front layer and stereo disabled, renders
 once, and is then pointed back.
 */
module SceneSwap {

  /** The stereo modes of the host camera. */
  datatype StereoMode = Disabled | Active | PassiveLeftRight | PassiveTopBottom

  /** A world (scene graph) by identity. */
  datatype World = World(id: nat)

  /** The camera fields the swap reads and writes. */
  datatype Camera = Camera(parentWorld: World, frontLayer: World, stereoMode: StereoMode)

  /** What the host's render step does: it returns with the camera in some
      state, or it throws, leaving the camera in some state. */
  datatype RenderOutcome = Rendered(camera: Camera) | Threw(camera: Camera)

  /** The camera as the render step saw it, as the update left it, and
      whether the update ran to its end (false when the render threw). */
  datatype Frame = Frame(rendered: Camera, after: Camera, completed: bool)

  /** The camera each render step is given. */
  function SwappedCamera(distortedWorld: World, emptyWorld: World): Camera
  {
    Camera(distortedWorld, emptyWorld, Disabled)
  }

  /** One `graphicsUpdate`. `render` is the host's render step, which may
      change the camera in any way and may throw; `emptyWorld` is the
      process-wide empty world, created once and reused by every frame. No
      handler surrounds the render: when it throws, the exception leaves the
      update with the camera still swapped. */
  function GraphicsUpdate(cam: Camera, distortedWorld: World, emptyWorld: World,
                          render: Camera -> RenderOutcome): (f: Frame)
    ensures f.rendered == SwappedCamera(distortedWorld, emptyWorld)
    ensures f.completed <==> render(f.rendered).Rendered?
    ensures f.completed ==> f.after.parentWorld == cam.parentWorld
    ensures f.completed ==> f.after.frontLayer == cam.frontLayer
    ensures f.completed ==> f.after.stereoMode == PassiveLeftRight
    ensures !f.completed ==> f.after == render(f.rendered).camera
  {
    var cachedWorld := cam.parentWorld;
    var c1 := cam.(stereoMode := Disabled);
    var c2 := c1.(parentWorld := distortedWorld);
    var frontLayer := c2.frontLayer;
    var c3 := c2.(frontLayer := emptyWorld);
    match render(c3)
    case Threw(c4) => Frame(c3, c4, false)
    case Rendered(c4) =>
      var c5 := c4.(frontLayer := frontLayer);
      var c6 := c5.(stereoMode := PassiveLeftRight);
      Frame(c3, c6.(parentWorld := cachedWorld), true)
  }

  /** The update is not a full restore: a camera that was not in passive
      left/right stereo comes back changed even when the render returns.
      A corollary of `GraphicsUpdate`'s contract, stated as the difference
      between the camera before and after. */
  lemma StereoModeNotRestored(cam: Camera, distortedWorld: World, emptyWorld: World,
                              render: Camera -> RenderOutcome)
    requires cam.stereoMode != PassiveLeftRight
    requires render(SwappedCamera(distortedWorld, emptyWorld)).Rendered?
    ensures GraphicsUpdate(cam, distortedWorld, emptyWorld, render).after != cam
  {
  }

  /** A render that throws without touching the camera leaves it on the
      distortion world, with the empty front layer and stereo disabled. */
  lemma ThrowingRenderLeavesSwap(cam: Camera, distortedWorld: World, emptyWorld: World,
                                 render: Camera -> RenderOutcome)
    requires render(SwappedCamera(distortedWorld, emptyWorld)) == Threw(SwappedCamera(distortedWorld, emptyWorld))
    ensures var f := GraphicsUpdate(cam, distortedWorld, emptyWorld, render);
            && !f.completed
            && f.after.parentWorld == distortedWorld
            && f.after.frontLayer == emptyWorld
            && f.after.stereoMode == Disabled
  {
  }

  /** Consecutive updates, one per render step in `renders`, stopping at the
      first one whose render throws. */
  function RunFrames(cam: Camera, distortedWorld: World, emptyWorld: World,
                     renders: seq<Camera -> RenderOutcome>): Camera
    decreases |renders|
  {
    if |renders| == 0 then cam
    else
      var f := GraphicsUpdate(cam, distortedWorld, emptyWorld, renders[0]);
      if !f.completed then f.after
      else RunFrames(f.after, distortedWorld, emptyWorld, renders[1..])
  }

  /** However many frames run, as long as no render throws, the camera ends on
      its original worlds, in passive left/right stereo once at least one
      frame has run. */
  lemma {:induction false} FramesKeepWorlds(cam: Camera, distortedWorld: World, emptyWorld: World,
                                            renders: seq<Camera -> RenderOutcome>)
    requires forall i :: 0 <= i < |renders| ==> renders[i](SwappedCamera(distortedWorld, emptyWorld)).Rendered?
    ensures RunFrames(cam, distortedWorld, emptyWorld, renders).parentWorld == cam.parentWorld
    ensures RunFrames(cam, distortedWorld, emptyWorld, renders).frontLayer == cam.frontLayer
    ensures |renders| > 0 ==> RunFrames(cam, distortedWorld, emptyWorld, renders).stereoMode == PassiveLeftRight
    decreases |renders|
  {
    if |renders| > 0 {
      var next := GraphicsUpdate(cam, distortedWorld, emptyWorld, renders[0]).after;
      FramesKeepWorlds(next, distortedWorld, emptyWorld, renders[1..]);
    }
  }
}

=== FILE: wrappers.dfy ===
/** Optional values, used across the model. */
module Wrappers {

  /** A value that may be absent: a key not given, a file that did not load,
      a string that is not a number. */
  datatype Option<+T> = None | Some(value: T)
}

=== FILE: yaml.dfy ===
/**
 A parsed YAML document tree and the few yaml-cpp node operations the plugin
 relies on: the subscript `node[key]` on a non-const node, and conversion of a
 node to a double with `as<double>()`.
 */
module Yaml {
  import opened Wrappers

  /** A document node. Mapping keys are compared as strings, as yaml-cpp does
      when it looks a key up. */
  datatype Node =
    | Null
    | Scalar(text: string)
    | Seq(items: seq<Node>)
    | Map(entries: map<string, Node>)

  /** yaml-cpp's text-to-double conversion, which this model does not
      reimplement: `None` when the scalar text is not a number. */
  type DoubleParser = string -> Option<real>

  /** What `node[key]` yields: an undefined node (the key is absent, so the
      node tests false), a defined node, or a thrown `BadSubscript`. */
  datatype Lookup = Undefined | Defined(node: Node) | BadSubscript

  /** The decimal spelling of a sequence index, as `std::to_string` writes it. */
  function Decimal(n: nat): (s: string)
    ensures |s| > 0
    ensures forall i :: 0 <= i < |s| ==> '0' <= s[i] <= '9'
  {
    var last := ('0' as int + n % 10) as char;
    if n < 10 then [last] else Decimal(n / 10) + [last]
  }

  /** The position `i < count` whose decimal spelling is `key`, if any. */
  function IndexKey(key: string, count: nat): (r: Option<nat>)
    ensures r.Some? ==> r.value < count && Decimal(r.value) == key
    ensures r.None? ==> forall i :: 0 <= i < count ==> Decimal(i) != key
  {
    if count == 0 then None
    else if Decimal(count - 1) == key then Some(count - 1)
    else IndexKey(key, count - 1)
  }

  /** `node[key]` on a non-const node. A scalar throws; an empty (null) node
      and a sequence are first turned into a map, a sequence's keys being the
      decimal spellings of its positions. */
  function Subscript(n: Node, key: string): Lookup
  {
    match n
    case Null => Undefined
    case Scalar(_) => BadSubscript
    case Seq(items) =>
      (match IndexKey(key, |items|)
       case Some(i) => Defined(items[i])
       case None => Undefined)
    case Map(entries) =>
      if key in entries then Defined(entries[key]) else Undefined
  }

  /** A key that does not start with a digit is found only in a map, and
      there exactly when the map holds it. */
  lemma WordKeyFoundOnlyInMap(n: Node, key: string)
    requires |key| > 0 && !('0' <= key[0] <= '9')
    ensures Subscript(n, key).Defined? <==> n.Map? && key in n.entries
    ensures Subscript(n, key).Defined? ==> Subscript(n, key).node == n.entries[key]
    ensures Subscript(n, key).BadSubscript? <==> n.Scalar?
  {
  }

  /** `as<double>()`: only a scalar whose text parses converts. */
  function AsDouble(n: Node, parse: DoubleParser): (r: Option<real>)
    ensures r.Some? ==> n.Scalar? && parse(n.text) == r
    ensures n.Scalar? ==> r == parse(n.text)
  {
    if n.Scalar? then parse(n.text) else None
  }

  /** `node[key].as<double>()`: an absent key converts no better than a
      non-numeric value. */
  function FieldAsDouble(l: Lookup, parse: DoubleParser): (r: Option<real>)
    ensures r.Some? ==> l.Defined? && AsDouble(l.node, parse) == r
  {
    match l
    case Defined(n) => AsDouble(n, parse)
    case _ => None
  }

  predicate IsNumeric(n: Node, parse: DoubleParser)
  {
    AsDouble(n, parse).Some?
  }

  /** The converted values of a sequence's elements taken in order, stopping
      at the first element that does not convert (`complete` is then false). */
  datatype Converted = Converted(values: seq<real>, complete: bool)

  function ConvertEach(items: seq<Node>, parse: DoubleParser): (r: Converted)
    ensures |r.values| <= |items|
    ensures forall i :: 0 <= i < |r.values| ==> AsDouble(items[i], parse) == Some(r.values[i])
    ensures r.complete <==> |r.values| == |items|
    ensures !r.complete ==> !IsNumeric(items[|r.values|], parse)
  {
    if |items| == 0 then Converted([], true)
    else
      match AsDouble(items[0], parse)
      case None => Converted([], false)
      case Some(v) =>
        var rest := ConvertEach(items[1..], parse);
        Converted([v] + rest.values, rest.complete)
  }

  /** The conversion is complete exactly when every element is numeric. */
  lemma ConvertEachCompleteIff(items: seq<Node>, parse: DoubleParser)
    ensures ConvertEach(items, parse).complete <==> forall i :: 0 <= i < |items| ==> IsNumeric(items[i], parse)
  {
  }
}
